=== FILE: README.md ===
# MedGPT retrieval-augmented generation: a Dafny model

This project models the retrieval core of the MedGPT RAG script. The script has four parts:

- a `VectorDB` that holds corpus embeddings with cached L2 norms and parallel texts, and answers batched top-k cosine queries;
- a `RerankerModel` that scores (query, candidate) pairs with a cross-encoder and keeps the k best candidates per query;
- an `AugmentedLLM` that enumerates the evidence into a prompt and asks a chat model once per query;
- a demo round that retrieves 50 candidates per query, reranks them to k, and generates answers in three evidence modes.

The model is written as pure functions over sequences, plus methods where the source loops.

- `results.dfy` (`Results`): the failure kinds (`LengthMismatch`, `RaggedBatch`, `DimensionMismatch`, `InvalidK`, `IndexOutOfRange`) and `Result`.
- `topk.dfy` (`TopK`): `torch.topk` as the relation `IsTopK`. It holds for k distinct in-range positions, in non-increasing score order, that no position left out outscores. `SelectTopK` is the selection method. The gather `Gather` maps positions back to texts.
- `reranker.dfy` (`Reranker`): `RerankerModel.__call__`.
- `vectordb.dfy` (`VectorDB`): the index, the ε-stabilised cosine formula, and `topk_cosine`.
- `augmentedllm.dfy` (`AugmentedLLM`): decimal labels, prompt assembly, and the generation loop.
- `demo.dfy` (`Demo`): one round of `demo_input_loop` with its three evidence modes.

The external models are parameters:

- `score: (string, string) -> real` is the cross-encoder.
- `complete: string -> string` is the chat completion.
- The embedding model is replaced by its output rows and their norms.

torch.topk does not fix a tie rule, so the model never assumes one. `SelectTopK` is a method, and callers see only its contract. `TopKScoresDetermined` proves that every tie rule gives the same scores, position by position. Only which of several equal-scoring entries is returned can differ.

## Model

| member | source | states |
|---|---|---|
| TopK.IsTopK | medgpt/medgpt-rag.py:67 | what torch.topk(x, k) may answer for a row: exactly k distinct positions of the row, in non-increasing score order, none outscored by a position left out; no tie rule is fixed |
| TopK.SelectTopK | medgpt/medgpt-rag.py:67 | for any row and any k up to its length, the selection returns k distinct positions of the row, best first, and every position left out scores at most every chosen one |
| TopK.SelectRows | medgpt/medgpt-rag.py:144 | top-k along the last dimension: one selection per row of the score matrix, each a legitimate top-k of its own row |
| TopK.Gather | medgpt/medgpt-rag.py:72-76 | the gathered slice has one entry per chosen position, entry m is the candidate at position m of the choice, so every output text is one of the inputs |
| TopK.TopKScoresDetermined | medgpt/medgpt-rag.py:67 | any two legitimate top-k answers for the same row carry equal scores at every rank, so the tie rule cannot change the returned scores |
| Reranker.ScoreRow | medgpt/medgpt-rag.py:62-65 | the score list of a query has one score per candidate, aligned with the candidate order, each the cross-encoder's score of that pair |
| Reranker.ScoreRows | medgpt/medgpt-rag.py:61-66 | the score matrix has one row per query, and row i pairs query i with its own candidates only |
| Reranker.RankRows | medgpt/medgpt-rag.py:61-76 | on a well-shaped batch with 0 <= k <= width, every query gets a top-k choice over its own scores, and its slice holds the candidates and scores at exactly those positions, in choice order: k candidates of that query, best first |
| Reranker.Rerank | medgpt/medgpt-rag.py:56-81 | fails with LengthMismatch exactly when the two batches differ in length, with RaggedBatch when candidate lists differ in length, and with InvalidK when k is negative or exceeds the list length; otherwise returns one slice per query in query order, each of exactly k candidates of that query, in non-increasing score order, chosen as a top-k of that query's scores |
| Reranker.RerankedRowAlone | medgpt/medgpt-rag.py:61-76 | the slice a batch gives query i is exactly what reranking query i alone with the same chosen positions gives: it depends only on that query and its own candidates |
| Reranker.BatchScoresMatchAlone | medgpt/medgpt-rag.py:61-76 | the scores a batch gives query i equal, rank by rank, the scores of any reranking of query i alone, whatever tie rule either run used |
| Reranker.RaggedBatchFails | medgpt/medgpt-rag.py:61-67 | a batch whose candidate lists have lengths 2 and 3 fails with RaggedBatch, while its first query alone reranks to one of its two candidates |
| Reranker.EmptyBatch | medgpt/medgpt-rag.py:66-67 | an empty batch succeeds exactly when k = 0, with an empty result, and otherwise fails with InvalidK |
| Reranker.RerankExample | medgpt/medgpt-rag.py:65-76 | candidates A, B, C scored 0.1, 0.9, 0.5 with k = 2 give B then C with scores 0.9 and 0.5, under any tie rule |
| VectorDB.Dot | medgpt/medgpt-rag.py:139-140 | the row-wise dot product that both einsums compute: the sum of the products of corresponding entries |
| VectorDB.Similarity | medgpt/medgpt-rag.py:141-143 | one entry of `sims`: the dot product divided by the product of the two norms plus 1e-5, defined for all non-negative norms |
| VectorDB.Build | medgpt/medgpt-rag.py:129-134 | the index is built exactly when there is at least one key row and all key rows have the width of the first; no rows fails with DimensionMismatch (the einsum over a 1-D tensor), ragged rows with RaggedBatch; the index keeps keys and values unchanged, has the rows' width, and caches for every row the norm of that row; no check relates the number of values to the number of keys |
| VectorDB.BuiltKeySelfScore | medgpt/medgpt-rag.py:131-143 | in a built index, key i used as a query with its cached norm scores d / (d + 1e-5) against itself, d being its squared norm, so below 1 |
| VectorDB.SimilarityBounds | medgpt/medgpt-rag.py:139-143 | with the 1e-5 stabiliser the similarity is defined for all non-negative norms, is 0 when the dot product is 0, has the sign of the dot product, and lies strictly inside (-1, 1) whenever the dot product is bounded by the product of the norms |
| VectorDB.SimPrefix | medgpt/medgpt-rag.py:140-143 | the similarity of a query to the first n keys: exactly n entries, entry i being the stabilised cosine of the query against key i |
| VectorDB.SimRow | medgpt/medgpt-rag.py:140-143 | the row of `sims` for one query: one entry per key, entry i being the similarity of the query to key i with their norms |
| VectorDB.TopKCosine | medgpt/medgpt-rag.py:137-155 | fails with DimensionMismatch when a query row's width differs from the keys' width, then with InvalidK when k is outside 0..N, then with IndexOutOfRange exactly when a chosen row has no value; it cannot fail that way when there are at least as many values as keys; otherwise it returns one slice per query of exactly k values, each taken at a top-k position of that query's similarity row, with the matching scores |
| VectorDB.SearchedRowAlone | medgpt/medgpt-rag.py:137-150 | the slice a batch gives query i is exactly what searching with query i alone and the same chosen positions gives |
| VectorDB.SearchScoresMatchAlone | medgpt/medgpt-rag.py:137-150 | the scores a batch gives query i equal, rank by rank, the scores of any search with query i alone, whatever tie rule either run used |
| VectorDB.ZeroKeyScoresZero | medgpt/medgpt-rag.py:143 | a zero key row scores exactly 0 against every query, although its norm makes the unstabilised denominator 0 |
| VectorDB.ZeroQueryScoresZero | medgpt/medgpt-rag.py:139-143 | a zero query scores exactly 0 against every key |
| VectorDB.SelfSimilarity | medgpt/medgpt-rag.py:139-143 | a vector scored against itself gets d / (d + 1e-5) with d its squared norm, which is always below 1 and is within 1e-4 of 1 exactly when d >= 0.09999 |
| VectorDB.DotScale | medgpt/medgpt-rag.py:139-140 | scaling either argument of the dot product by c scales the product by c |
| VectorDB.ScaledNorm | medgpt/medgpt-rag.py:139 | scaling a vector by c > 0 scales its L2 norm by c |
| VectorDB.ScaledSimilarity | medgpt/medgpt-rag.py:141-143 | multiplying the dot product and the query norm by c > 0 gives the unscaled similarity computed with the stabiliser divided by c |
| VectorDB.ScaledQueryRow | medgpt/medgpt-rag.py:139-143 | scaling a query and its norm by c > 0 multiplies the dot product of every entry of its similarity row by c, so by `ScaledSimilarity` each entry becomes the unscaled one computed with the stabiliser divided by c |
| VectorDB.ScalingChangesTopOne | medgpt/medgpt-rag.py:143-144 | on a two-key corpus with exact norms, the query (1, 0) ranks the first key best while the same query scaled by 1e-5 ranks the second key best, so the ranking is not scale invariant |
| VectorDB.SearchExample | medgpt/medgpt-rag.py:137-150 | keys A = (1,0), B = (0,1), C = (1,1) with exact norms and query (1,0), k = 2 yield positions 0 then 2, that is A then C |
| AugmentedLLM.NatToString | medgpt/medgpt-rag.py:99 | the label of j is a canonical decimal numeral: non-empty, digits only, no leading zero |
| AugmentedLLM.ParseNatToString | medgpt/medgpt-rag.py:99 | reading a label back as a decimal number gives the j it was written from |
| AugmentedLLM.NatToStringParse | medgpt/medgpt-rag.py:99 | every canonical numeral is the label of the number it denotes, so labels and indices correspond one to one |
| AugmentedLLM.EvidenceBlockAppend | medgpt/medgpt-rag.py:99 | adding one more evidence item appends exactly the line "[j] item" and a newline, with j the item's 0-based position |
| AugmentedLLM.BuildPrompt | medgpt/medgpt-rag.py:99 | the prompt: the metaprompt, then one line "[j] item" per evidence item in order, then the query and "\nAnswer:" |
| AugmentedLLM.PromptShape | medgpt/medgpt-rag.py:99 | every prompt starts with the metaprompt and ends with the query followed by "\nAnswer:"; with no evidence the prompt is exactly metaprompt, query, "\nAnswer:" |
| AugmentedLLM.BlockPrefix | medgpt/medgpt-rag.py:99 | the evidence block of the first n items is a prefix of the block of all items |
| AugmentedLLM.PromptEvidenceOrder | medgpt/medgpt-rag.py:99 | evidence keeps its order: item j appears as its own labelled line directly after the lines of items 0..j-1, which directly follow the metaprompt |
| AugmentedLLM.Generate | medgpt/medgpt-rag.py:88-121 | fails with LengthMismatch exactly when the query and evidence batches differ in length; otherwise returns one completion per query, in query order, each from the prompt built with that query's own evidence |
| Demo.PyPrefix | medgpt/medgpt-rag.py:189 | r[:k] is a prefix of r, of length min(k, len(r)) for k >= 0, and of length max(0, len(r) + k) for negative k |
| Demo.QueryOnlyEvidence | medgpt/medgpt-rag.py:184 | the "Query Only" evidence: one empty list per query |
| Demo.RetrievalOnlyEvidence | medgpt/medgpt-rag.py:189 | the "Retrieval Only" evidence: for each query, Python's r[:k] of its coarse candidates |
| Demo.DemoRound | medgpt/medgpt-rag.py:167-196 | a round succeeds only if the query rows fit the corpus, the corpus has at least 50 keys and 0 <= k <= 50 (k = 0 for an empty batch), and it does succeed then when every key has a value; each query then gets as coarse candidates the values at a top-50 choice of its cosine similarity row, as reranked evidence the coarse candidates at a top-k choice of the cross-encoder's scores of that query against its own coarse list (so exactly k of them), and three generations: query only (prompt exactly metaprompt, query, "\nAnswer:"), the first k coarse candidates, and the reranked list, all from the one coarse retrieval |

## Left out

- Loading the OpenAI key, building the client, the smoke-test completion and the chat-completion call (medgpt/medgpt-rag.py:9-29, 101-120). These are I/O and network. The completion is the parameter `complete`.
- The `print` of every prompt before it is sent (medgpt/medgpt-rag.py:100). It is console output and changes no result.
- AugmentedLLM.Generate: `complete` is a function, so the model assumes that equal prompts get equal completions. The chat call uses the API's default sampling and promises no such thing, so a statement that two generations are equal holds only for a deterministic completion.
- `EmbeddingModel` (medgpt/medgpt-rag.py:41-48) and `FlagModel.encode`. The demo round takes the embedded rows and their norms as inputs.
- `FlagReranker.compute_score` (medgpt/medgpt-rag.py:53, 65) is the per-pair function `score`. One batched call per query is assumed to return one score per pair, in order. The library's own special cases are not modelled, for example a bare float for a single pair, or an exception. A scorer failure therefore has no error kind here.
- Reranker.Rerank: its "exactly when" conditions hold for a scorer that returns one score per pair. With the real scorer, a batch of one-candidate lists gets bare floats, so torch.topk returns a 1-D tensor, and the gather at medgpt-rag.py:75 raises TypeError. At k = 0 that batch returns `[]` in the program, while the model returns one empty slice per query. A batch with empty candidate lists fails inside the scorer. Neither failure has an error kind here.
- Tensor loading, `.to(device)` and `.half()` (medgpt/medgpt-rag.py:129-134, 138). Arithmetic is over exact reals, and nothing is claimed about fp16 rounding.
- `torch.sqrt` (medgpt/medgpt-rag.py:134, 139). Dafny has no square root, so norms are inputs. `IsNorm` ties a norm to its vector where a lemma needs it. `Build` requires the caller's key norms to satisfy it.
- VectorDB.Build: the loaded keys are a list of rows. A key file holding a (0, D) tensor would keep width D, whereas an empty row list here becomes the 1-D `torch.tensor([])`, over which the einsum `"ij, ij -> i"` at medgpt-rag.py:134 fails.
- VectorDB.TopKCosine: needs only non-negative query norms, not exact ones. Every contract it states holds for any such norms, the exact ones included.
- How torch.topk breaks ties. It is left open on purpose: no member fixes a tie rule.
- The `return_scores` flag (medgpt/medgpt-rag.py:78-81, 152-155). Both rankers return scores and texts together, and the flag only chooses whether the caller also sees the scores.
- `demo_input_loop`'s printing, `input()`, and the pop/append of the query list (medgpt/medgpt-rag.py:158-166, 170-173, 178-182, 185-187, 190-192, 195-203), and `main` (medgpt/medgpt-rag.py:220-248). These are console I/O and set-up.
- `AugmentedLLM.logprob` and `Task` (medgpt/medgpt-rag.py:123-125, 206-217). They are unfinished stubs with no behaviour.

## Behaviour worth knowing

- torch.topk fixes no tie order, and the model fixes none. `TopKScoresDetermined` shows the returned scores do not depend on it.
- k = 0 is accepted: torch.topk rejects only k < 0 and k above the scored dimension. An empty reranker batch becomes a 1-D tensor with no elements, so only k = 0 succeeds there (`EmptyBatch`).
- Nothing checks that keys and values have the same count. `topk_cosine` fails only when a chosen row has no value (`IndexOutOfRange`).
- A batch is not the same as its queries run one by one. Where both succeed, each query gets the same scores (`BatchScoresMatchAlone`, `SearchScoresMatchAlone`). But the reranker fails on a whole batch whose candidate lists differ in length, although each query alone succeeds when every list has at least two candidates (`RaggedBatchFails`). `topk_cosine` fails a whole batch when any one query picks a row with no value.
- The ranking is not scale invariant. Scaling a query by c acts like dividing the 1e-5 stabiliser by c (`ScaledQueryRow`, `ScaledSimilarity`), and `ScalingChangesTopOne` gives a corpus whose best match changes.
- A vector scores d / (d + 1e-5) against itself, d being its squared norm (`SelfSimilarity`, `BuiltKeySelfScore`). This is within 1e-4 of 1 only when d >= 0.09999.

=== FILE: augmentedllm.dfy ===
/** `AugmentedLLM`: assemble the prompt from the metaprompt, the enumerated evidence and the
    query, and ask the chat model once per query.

    The chat-completion call is the parameter `complete`, from prompt to answer text. */
module AugmentedLLM {
  import opened Results

  // ---------------------------------------------------------------------------------------
  // Decimal labels: the `{j}` of `f"[{j}] "`

  predicate IsDigit(c: char) {
    '0' <= c <= '9'
  }

  predicate AllDigits(s: string) {
    forall i :: 0 <= i < |s| ==> IsDigit(s[i])
  }

  /** A decimal numeral as Python's `str` writes a non-negative int: digits only, and no
      leading zero unless the numeral is "0" itself. */
  predicate Canonical(s: string) {
    |s| >= 1 && AllDigits(s) && (s[0] == '0' ==> |s| == 1)
  }

  function DigitChar(d: nat): (c: char)
    requires d < 10
    ensures IsDigit(c)
  {
    ('0' as int + d) as char
  }

  function DigitValue(c: char): (d: nat)
    requires IsDigit(c)
    ensures d < 10
  {
    c as int - '0' as int
  }

  /** `str(n)` for a non-negative int. */
  function NatToString(n: nat): (s: string)
    ensures Canonical(s)
    ensures n > 0 ==> s[0] != '0'
    decreases n
  {
    if n < 10 then [DigitChar(n)] else NatToString(n / 10) + [DigitChar(n % 10)]
  }

  /** The value of a string of decimal digits, most significant first. */
  function ParseNat(s: string): (n: nat)
    requires AllDigits(s)
  {
    if |s| == 0 then 0 else 10 * ParseNat(s[..|s| - 1]) + DigitValue(s[|s| - 1])
  }

  /** Reading a label back gives the number it was written from. */
  lemma {:induction false} ParseNatToString(n: nat)
    ensures ParseNat(NatToString(n)) == n
  {
    var s := NatToString(n);
    if n >= 10 {
      ParseNatToString(n / 10);
      assert s[..|s| - 1] == NatToString(n / 10);
    }
  }

  lemma {:induction false} ParseNatPositive(s: string)
    requires AllDigits(s) && |s| >= 1 && s[0] != '0'
    ensures ParseNat(s) >= 1
  {
    if |s| > 1 {
      ParseNatPositive(s[..|s| - 1]);
    }
  }

  /** Every canonical numeral is the label of the number it denotes, so labels and numbers
      correspond one to one. */
  lemma {:induction false} NatToStringParse(s: string)
    requires Canonical(s)
    ensures NatToString(ParseNat(s)) == s
  {
    var n := ParseNat(s);
    if |s| > 1 {
      var t := s[..|s| - 1];
      ParseNatPositive(t);
      NatToStringParse(t);
      assert n / 10 == ParseNat(t);
      assert n % 10 == DigitValue(s[|s| - 1]);
      assert s == t + [s[|s| - 1]];
    }
  }

  // ---------------------------------------------------------------------------------------
  // The prompt

  /** The cue that ends every prompt. */
  const AnswerCue: string := "\nAnswer:"

  /** `f"[{j}] " + e[j] + "\n"`. */
  function EvidenceLine(j: nat, item: string): (line: string) {
    "[" + NatToString(j) + "] " + item + "\n"
  }

  /** `"".join(parts)`. */
  function Join(parts: seq<string>): (s: string) {
    if |parts| == 0 then "" else parts[0] + Join(parts[1..])
  }

  /** The list comprehension over `range(len(e))`: line j labels item j with j. */
  function EvidenceLines(e: seq<string>): (lines: seq<string>)
    ensures |lines| == |e|
    ensures forall j :: 0 <= j < |e| ==> lines[j] == EvidenceLine(j, e[j])
  {
    seq(|e|, j requires 0 <= j < |e| => EvidenceLine(j, e[j]))
  }

  /** `self.metaprompt + "".join([...]) + query + "\nAnswer:"`. */
  function BuildPrompt(meta: string, e: seq<string>, query: string): (prompt: string) {
    meta + Join(EvidenceLines(e)) + query + AnswerCue
  }

  lemma {:induction false} JoinAppend(a: seq<string>, b: seq<string>)
    ensures Join(a + b) == Join(a) + Join(b)
  {
    if |a| > 0 {
      JoinAppend(a[1..], b);
      assert (a + b)[1..] == a[1..] + b;
    } else {
      assert a + b == b;
    }
  }

  /** Adding one more evidence item appends exactly its line, labelled with its position:
      together with the empty case this characterises the evidence block item by item. */
  lemma EvidenceBlockAppend(e: seq<string>, item: string)
    ensures Join(EvidenceLines(e + [item])) == Join(EvidenceLines(e)) + EvidenceLine(|e|, item)
  {
    var lines := EvidenceLines(e + [item]);
    assert lines == EvidenceLines(e) + [EvidenceLine(|e|, item)];
    JoinAppend(EvidenceLines(e), [EvidenceLine(|e|, item)]);
  }

  /** The prompt starts with the metaprompt and ends with the query and the answer cue;
      with no evidence it is exactly metaprompt, query, cue. */
  lemma PromptShape(meta: string, e: seq<string>, query: string)
    ensures meta <= BuildPrompt(meta, e, query)
    ensures var p := BuildPrompt(meta, e, query);
            |p| >= |query + AnswerCue| && p[|p| - |query + AnswerCue|..] == query + AnswerCue
    ensures |e| == 0 ==> BuildPrompt(meta, e, query) == meta + query + AnswerCue
  {
    var p := BuildPrompt(meta, e, query);
    var block := Join(EvidenceLines(e));
    assert p == (meta + block) + (query + AnswerCue);
    assert meta == p[..|meta|];
    if |e| == 0 {
      assert EvidenceLines(e) == [];
    }
  }

  /** Evidence keeps its order: item j appears as line "[j] item\n" right after the lines of
      items 0 .. j-1, all of it directly after the metaprompt. */
  lemma {:induction false} PromptEvidenceOrder(meta: string, e: seq<string>, query: string, j: nat)
    requires j < |e|
    ensures meta + Join(EvidenceLines(e[..j])) + EvidenceLine(j, e[j]) <= BuildPrompt(meta, e, query)
  {
    EvidenceBlockAppend(e[..j], e[j]);
    assert e[..j] + [e[j]] == e[..j + 1];
    BlockPrefix(e, j + 1);
    var head := Join(EvidenceLines(e[..j + 1]));
    var block := Join(EvidenceLines(e));
    assert head <= block;
    assert BuildPrompt(meta, e, query) == meta + block + query + AnswerCue;
    assert (meta + head) <= (meta + block);
  }

  /** The block of a prefix of the evidence is a prefix of the block. */
  lemma {:induction false} BlockPrefix(e: seq<string>, n: nat)
    requires n <= |e|
    ensures Join(EvidenceLines(e[..n])) <= Join(EvidenceLines(e))
    decreases |e| - n
  {
    if n < |e| {
      BlockPrefix(e, n + 1);
      EvidenceBlockAppend(e[..n], e[n]);
      assert e[..n] + [e[n]] == e[..n + 1];
    } else {
      assert e[..n] == e;
    }
  }

  // ---------------------------------------------------------------------------------------
  // Generation

  /** `AugmentedLLM.__call__`: one completion per query, in query order, each from the prompt
      built with that query's own evidence list. */
  method Generate(meta: string, queries: seq<string>, evidence: seq<seq<string>>, complete: string -> string)
    returns (res: Result<seq<string>>)
    ensures res.Err? <==> |queries| != |evidence|
    ensures res.Err? ==> res.error == LengthMismatch
    ensures res.Ok? ==> |res.value| == |queries|
    ensures res.Ok? ==> forall i :: 0 <= i < |queries| ==>
              res.value[i] == complete(BuildPrompt(meta, evidence[i], queries[i]))
  {
    if |queries| != |evidence| {
      return Err(LengthMismatch);
    }
    var generations: seq<string> := [];
    while |generations| < |queries|
      invariant |generations| <= |queries|
      invariant forall i :: 0 <= i < |generations| ==>
                  generations[i] == complete(BuildPrompt(meta, evidence[i], queries[i]))
    {
      var i := |generations|;
      var prompt := BuildPrompt(meta, evidence[i], queries[i]);
      generations := generations + [complete(prompt)];
    }
    return Ok(generations);
  }
}

=== FILE: demo.dfy ===
/** One round of `demo_input_loop`: coarse retrieval of 50 candidates per query, reranking to
    k, then generation in three evidence modes that all share the one coarse retrieval.

    The embedding model is replaced by its output: `embedded` (one row per query) and the
    norms of those rows. Printing and the `input()` loop are not modelled. */
module Demo {
  import opened Results
  import opened TopK
  import opened VectorDB
  import opened Reranker
  import opened AugmentedLLM

  /** The coarse retrieval size hard-coded in the demo. */
  const CoarseK: int := 50

  /** Python's `r[:k]`: at most the first k items; a negative k drops |k| items from the end. */
  function PyPrefix<T>(r: seq<T>, k: int): (p: seq<T>)
    ensures p <= r
    ensures k >= 0 ==> |p| == if k <= |r| then k else |r|
    ensures k < 0 ==> |p| == if |r| + k >= 0 then |r| + k else 0
  {
    if k >= 0 then (if k <= |r| then r[..k] else r)
    else if |r| + k >= 0 then r[..|r| + k]
    else []
  }

  /** "Query Only": an empty evidence list for every query. */
  function QueryOnlyEvidence(n: nat): (ev: seq<seq<string>>)
    ensures |ev| == n
    ensures forall i :: 0 <= i < n ==> ev[i] == []
  {
    seq(n, _ => [])
  }

  /** "Retrieval Only": `[r[:k] for r in retrieved]`. */
  function RetrievalOnlyEvidence(retrieved: seq<seq<string>>, k: int): (ev: seq<seq<string>>)
    ensures |ev| == |retrieved|
    ensures forall i :: 0 <= i < |retrieved| ==> ev[i] == PyPrefix(retrieved[i], k)
  {
    seq(|retrieved|, i requires 0 <= i < |retrieved| => PyPrefix(retrieved[i], k))
  }

  /** What one round produces: the coarse and reranked evidence and the three generations. */
  datatype Round = Round(coarse: seq<seq<string>>, reranked: seq<seq<string>>,
                         queryOnly: seq<string>, retrievalOnly: seq<string>, withReranking: seq<string>)

  /** The largest k the reranker accepts on the coarse lists: the batch's score tensor has
      width 50, except for an empty batch, which becomes a 1-D tensor with no elements,
      whose last dimension has size 0. */
  function RerankBound(n: nat): (b: int) {
    if n == 0 then 0 else CoarseK
  }

  method DemoRound(db: Index, queries: seq<string>, embedded: seq<seq<real>>, qnorms: seq<real>,
                   k: int, meta: string, score: (string, string) -> real, complete: string -> string)
    returns (res: Result<Round>, ghost coarsePicks: seq<seq<nat>>, ghost rerankPicks: seq<seq<nat>>)
    requires Valid(db)
    requires |embedded| == |queries| && |qnorms| == |queries|
    requires forall i :: 0 <= i < |qnorms| ==> qnorms[i] >= 0.0
    ensures res.Ok? ==> QueriesFit(db, embedded) && CoarseK <= |db.keys| && 0 <= k <= RerankBound(|queries|)
    ensures (QueriesFit(db, embedded) && CoarseK <= |db.keys| && |db.keys| <= |db.values|
             && 0 <= k <= RerankBound(|queries|)) ==> res.Ok?
    ensures res.Ok? ==> && |coarsePicks| == |queries| && |rerankPicks| == |queries|
                        && |res.value.coarse| == |queries| && |res.value.reranked| == |queries|
    ensures res.Ok? ==> forall i :: 0 <= i < |queries| ==>
              && IsTopK(SimRow(db, embedded[i], qnorms[i]), CoarseK, coarsePicks[i])
              && InRange(coarsePicks[i], |db.values|)
              && res.value.coarse[i] == Gather(db.values, coarsePicks[i])
              && IsTopK(ScoreRow(queries[i], res.value.coarse[i], score), k, rerankPicks[i])
              && InRange(rerankPicks[i], |res.value.coarse[i]|)
              && res.value.reranked[i] == Gather(res.value.coarse[i], rerankPicks[i])
    ensures res.Ok? ==>
              var r := res.value;
              && |r.coarse| == |queries| && |r.reranked| == |queries|
              && |r.queryOnly| == |queries| && |r.retrievalOnly| == |queries| && |r.withReranking| == |queries|
              && forall i :: 0 <= i < |queries| ==>
                   && |r.coarse[i]| == CoarseK
                   && (forall x :: x in r.coarse[i] ==> x in db.values)
                   && |r.reranked[i]| == k
                   && (forall x :: x in r.reranked[i] ==> x in r.coarse[i])
                   && r.queryOnly[i] == complete(meta + queries[i] + AnswerCue)
                   && r.retrievalOnly[i] == complete(BuildPrompt(meta, r.coarse[i][..k], queries[i]))
                   && r.withReranking[i] == complete(BuildPrompt(meta, r.reranked[i], queries[i]))
  {
    rerankPicks := [];
    var retrieved;
    retrieved, coarsePicks := TopKCosine(db, embedded, qnorms, CoarseK);
    if retrieved.Err? {
      return Err(retrieved.error), coarsePicks, rerankPicks;
    }
    var coarse := retrieved.value.texts;
    assert Rectangular(coarse) && Width(coarse) == RerankBound(|queries|);
    var reranked;
    reranked, rerankPicks := Rerank(queries, coarse, k, score);
    if reranked.Err? {
      return Err(reranked.error), coarsePicks, rerankPicks;
    }
    var fine := reranked.value.texts;

    var noEvidence := QueryOnlyEvidence(|queries|);
    var prefixes := RetrievalOnlyEvidence(coarse, k);
    var g1 := Generate(meta, queries, noEvidence, complete);
    var g2 := Generate(meta, queries, prefixes, complete);
    var g3 := Generate(meta, queries, fine, complete);
    forall i | 0 <= i < |queries|
      ensures BuildPrompt(meta, noEvidence[i], queries[i]) == meta + queries[i] + AnswerCue
      ensures prefixes[i] == coarse[i][..k]
    {
      PromptShape(meta, noEvidence[i], queries[i]);
    }
    res := Ok(Round(coarse, fine, g1.value, g2.value, g3.value));
  }
}

=== FILE: reranker.dfy ===
/** `RerankerModel.__call__`: score every (query, candidate) pair with the cross-encoder,
    keep the k best candidates per query, and map the chosen positions back to texts.

    The cross-encoder (`FlagReranker.compute_score`) is the parameter `score`, applied to one
    pair at a time; one call per query covering all its candidates yields the same row. */
module Reranker {
  import opened Results
  import opened TopK

  /** Every row of the batch has the length of the first, as torch.tensor demands of the
      nested score list it is given. */
  predicate Rectangular<T>(rows: seq<seq<T>>) {
    forall i :: 0 <= i < |rows| ==> |rows[i]| == |rows[0]|
  }

  /** Size of the last dimension of the score tensor. An empty batch becomes a 1-D tensor
      with no elements, whose last dimension has size 0. */
  function Width<T>(rows: seq<seq<T>>): (w: nat) {
    if |rows| == 0 then 0 else |rows[0]|
  }

  /** `compute_score([[q, c] for c in r])`: one score per candidate, aligned with `r`. */
  function ScoreRow(q: string, r: seq<string>, score: (string, string) -> real): (row: seq<real>)
    ensures |row| == |r|
    ensures forall j :: 0 <= j < |r| ==> row[j] == score(q, r[j])
  {
    if |r| == 0 then [] else ScoreRow(q, r[..|r| - 1], score) + [score(q, r[|r| - 1])]
  }

  /** The score matrix: row i scores query i against its own candidates only. */
  function ScoreRows(queries: seq<string>, retrieved: seq<seq<string>>, score: (string, string) -> real)
    : (rows: seq<seq<real>>)
    requires |queries| == |retrieved|
    ensures |rows| == |queries|
    ensures forall i :: 0 <= i < |rows| ==> rows[i] == ScoreRow(queries[i], retrieved[i], score)
  {
    if |queries| == 0 then []
    else
      var n := |queries| - 1;
      ScoreRows(queries[..n], retrieved[..n], score) + [ScoreRow(queries[n], retrieved[n], score)]
  }

  /** `out` is what the reranker returns when torch.topk chose positions `picks`: one slice
      per query, in query order, entry m of slice i being candidate `picks[i][m]` of query i
      together with its score, and `picks[i]` a legitimate top-k of query i's scores. */
  ghost predicate RerankedBy(queries: seq<string>, retrieved: seq<seq<string>>, k: int,
                             score: (string, string) -> real, picks: seq<seq<nat>>, out: Ranked)
    requires |queries| == |retrieved|
  {
    && |picks| == |queries|
    && |out.texts| == |queries|
    && |out.scores| == |queries|
    && forall i :: 0 <= i < |queries| ==>
         var row := ScoreRow(queries[i], retrieved[i], score);
         && IsTopK(row, k, picks[i])
         && InRange(picks[i], |retrieved[i]|)
         && out.texts[i] == Gather(retrieved[i], picks[i])
         && out.scores[i] == Gather(row, picks[i])
  }

  /** What a reranked result guarantees per query: exactly k candidates, all of that query,
      best first. */
  lemma RerankedRows(queries: seq<string>, retrieved: seq<seq<string>>, k: int,
                     score: (string, string) -> real, picks: seq<seq<nat>>, out: Ranked)
    requires |queries| == |retrieved|
    requires RerankedBy(queries, retrieved, k, score, picks, out)
    ensures forall i :: 0 <= i < |queries| ==>
              && |out.texts[i]| == k
              && (forall x :: x in out.texts[i] ==> x in retrieved[i])
              && (forall m, m' :: 0 <= m < m' < k ==> out.scores[i][m'] <= out.scores[i][m])
  {
    forall i | 0 <= i < |queries|
      ensures |out.texts[i]| == k
      ensures forall m, m' :: 0 <= m < m' < k ==> out.scores[i][m'] <= out.scores[i][m]
    {
      var row := ScoreRow(queries[i], retrieved[i], score);
      assert IsTopK(row, k, picks[i]);
      assert out.scores[i] == Gather(row, picks[i]);
    }
  }

  /** Query i of a reranked batch is reranked exactly as it would be on its own with the
      same choice of positions: its slice depends on its own query and candidates only. */
  lemma RerankedRowAlone(queries: seq<string>, retrieved: seq<seq<string>>, k: int,
                         score: (string, string) -> real, picks: seq<seq<nat>>, out: Ranked, i: nat)
    requires |queries| == |retrieved|
    requires RerankedBy(queries, retrieved, k, score, picks, out)
    requires i < |queries|
    ensures RerankedBy([queries[i]], [retrieved[i]], k, score, [picks[i]], Ranked([out.scores[i]], [out.texts[i]]))
  {
    var row := ScoreRow(queries[i], retrieved[i], score);
    assert IsTopK(row, k, picks[i]) && InRange(picks[i], |retrieved[i]|);
  }

  /** Batching does not change a query's scores: slice i of a batch and the slice of any
      reranking of query i alone carry equal scores at every rank, whatever tie rule each
      run used. Only equal-scoring candidates can trade places. */
  lemma BatchScoresMatchAlone(queries: seq<string>, retrieved: seq<seq<string>>, k: int,
                              score: (string, string) -> real, picks: seq<seq<nat>>, out: Ranked, i: nat,
                              alonePicks: seq<seq<nat>>, alone: Ranked)
    requires |queries| == |retrieved|
    requires RerankedBy(queries, retrieved, k, score, picks, out)
    requires i < |queries|
    requires RerankedBy([queries[i]], [retrieved[i]], k, score, alonePicks, alone)
    ensures out.scores[i] == alone.scores[0]
  {
    var row := ScoreRow(queries[i], retrieved[i], score);
    assert IsTopK(row, k, picks[i]) && out.scores[i] == Gather(row, picks[i]);
    assert ([queries[i]])[0] == queries[i] && ([retrieved[i]])[0] == retrieved[i];
    assert IsTopK(row, k, alonePicks[0]) && alone.scores[0] == Gather(row, alonePicks[0]);
    TopKScoresDetermined(row, k, picks[i], alonePicks[0]);
  }

  /** The success path of the reranker: score, select per row, gather. */
  method RankRows(queries: seq<string>, retrieved: seq<seq<string>>, k: int, score: (string, string) -> real)
    returns (out: Ranked, ghost picks: seq<seq<nat>>)
    requires |queries| == |retrieved| && Rectangular(retrieved) && 0 <= k <= Width(retrieved)
    ensures RerankedBy(queries, retrieved, k, score, picks, out)
    ensures |out.texts| == |queries|
    ensures forall i :: 0 <= i < |queries| ==>
              && |out.texts[i]| == k
              && (forall x :: x in out.texts[i] ==> x in retrieved[i])
              && (forall m, m' :: 0 <= m < m' < k ==> out.scores[i][m'] <= out.scores[i][m])
  {
    var rows := ScoreRows(queries, retrieved, score);
    assert forall i :: 0 <= i < |rows| ==> |rows[i]| == |retrieved[i]| == Width(retrieved);
    var chosen := SelectRows(rows, k);
    assert forall i :: 0 <= i < |chosen| ==> InRange(chosen[i], |retrieved[i]|);
    picks := chosen;
    var n := |chosen|;
    var texts := seq(n, i requires 0 <= i < n => Gather(retrieved[i], chosen[i]));
    var scores := seq(n, i requires 0 <= i < n => Gather(rows[i], chosen[i]));
    out := Ranked(scores, texts);
    RerankedRows(queries, retrieved, k, score, picks, out);
  }

  /** The reranker. `picks` records the positions torch.topk chose. */
  method Rerank(queries: seq<string>, retrieved: seq<seq<string>>, k: int, score: (string, string) -> real)
    returns (res: Result<Ranked>, ghost picks: seq<seq<nat>>)
    ensures |queries| != |retrieved| ==> res == Err(LengthMismatch)
    ensures |queries| == |retrieved| && !Rectangular(retrieved) ==> res == Err(RaggedBatch)
    ensures (|queries| == |retrieved| && Rectangular(retrieved) && !(0 <= k <= Width(retrieved)))
              ==> res == Err(InvalidK)
    ensures res.Ok? <==> |queries| == |retrieved| && Rectangular(retrieved) && 0 <= k <= Width(retrieved)
    ensures res.Ok? ==> RerankedBy(queries, retrieved, k, score, picks, res.value)
    ensures res.Ok? ==> |res.value.texts| == |queries|
    ensures res.Ok? ==> forall i :: 0 <= i < |queries| ==>
              && |res.value.texts[i]| == k
              && (forall x :: x in res.value.texts[i] ==> x in retrieved[i])
              && (forall m, m' :: 0 <= m < m' < k ==> res.value.scores[i][m'] <= res.value.scores[i][m])
  {
    picks := [];
    if |queries| != |retrieved| {
      return Err(LengthMismatch), picks;
    }
    if !Rectangular(retrieved) {
      return Err(RaggedBatch), picks;
    }
    if !(0 <= k <= Width(retrieved)) {
      return Err(InvalidK), picks;
    }
    var out;
    out, picks := RankRows(queries, retrieved, k, score);
    res := Ok(out);
  }

  /** A batch can fail where each of its queries succeeds alone: candidate lists of lengths
      2 and 3 do not form a matrix, while the first query with its two candidates reranks
      to one of them. */
  method RaggedBatchFails(score: (string, string) -> real) returns (batch: Result<Ranked>, alone: Result<Ranked>)
    ensures batch == Err(RaggedBatch)
    ensures alone.Ok? && |alone.value.texts| == 1 && |alone.value.texts[0]| == 1
    ensures alone.Ok? ==> alone.value.texts[0][0] in ["x", "w"]
  {
    ghost var p;
    assert !Rectangular([["x", "w"], ["y", "z", "v"]]) by {
      assert |[["x", "w"], ["y", "z", "v"]][1]| != |[["x", "w"], ["y", "z", "v"]][0]|;
    }
    batch, p := Rerank(["a", "b"], [["x", "w"], ["y", "z", "v"]], 1, score);
    alone, p := Rerank(["a"], [["x", "w"]], 1, score);
  }

  /** An empty batch becomes a 1-D tensor with no elements, so only k = 0 is accepted, and
      then the result is empty. */
  method EmptyBatch(k: int, score: (string, string) -> real) returns (res: Result<Ranked>)
    ensures res.Ok? <==> k == 0
    ensures !res.Ok? ==> res == Err(InvalidK)
    ensures res.Ok? ==> res.value.texts == [] && res.value.scores == []
  {
    ghost var p;
    res, p := Rerank([], [], k, score);
  }

  /** The reranking scenario: candidates A, B, C for query Q scored 0.1, 0.9, 0.5 and k = 2
      give B then C, with their scores, whatever tie rule is in force. */
  lemma RerankExample(score: (string, string) -> real, picks: seq<seq<nat>>, out: Ranked)
    requires score("Q", "A") == 0.1 && score("Q", "B") == 0.9 && score("Q", "C") == 0.5
    requires RerankedBy(["Q"], [["A", "B", "C"]], 2, score, picks, out)
    ensures out.texts == [["B", "C"]]
    ensures out.scores == [[0.9, 0.5]]
  {
    var row := ScoreRow("Q", ["A", "B", "C"], score);
    assert row == [0.1, 0.9, 0.5];
    var p := picks[0];
    BestTwoOfThree(row, p, 1, 2, 0);
    var texts := Gather(["A", "B", "C"], p);
    assert texts[0] == "B" && texts[1] == "C";
    assert texts == ["B", "C"];
    assert out.texts == [texts];
    var scores := Gather(row, p);
    assert scores[0] == 0.9 && scores[1] == 0.5;
    assert scores == [0.9, 0.5];
    assert out.scores == [scores];
  }
}

=== FILE: results.dfy ===
/** Failure kinds of the retrieval pipeline and the result type that carries them.
    Each error names the Python exception site it stands for. */
module Results {

  datatype Error =
    | LengthMismatch     // a failed `assert len(queries) == len(...)`
    | RaggedBatch        // torch.tensor over candidate lists of unequal length
    | DimensionMismatch  // einsum over an operand of the wrong rank, or query rows whose width differs from the keys'
    | InvalidK           // torch.topk with k < 0 or k larger than the scored dimension
    | IndexOutOfRange    // `self.values[idx]` with idx past the end of the value list

  datatype Result<T> = Ok(value: T) | Err(error: Error)
}

=== FILE: topk.dfy ===
/** Top-k selection over one row of scores, as `torch.topk(x, k, dim = -1)` does it per row,
    and the gather that maps chosen positions back to texts.

    torch.topk does not document how it breaks ties, so `SelectTopK` is a method: callers know
    only its contract `IsTopK`, which admits every tie order. */
module TopK {

  /** What both rankers hand back: per query, the chosen scores and the chosen texts. */
  datatype Ranked = Ranked(scores: seq<seq<real>>, texts: seq<seq<string>>)

  /** Every position in `idx` addresses an element of a sequence of length `n`. */
  predicate InRange(idx: seq<nat>, n: nat) {
    forall m :: 0 <= m < |idx| ==> idx[m] < n
  }

  predicate Distinct(idx: seq<nat>) {
    forall m, m' :: 0 <= m < m' < |idx| ==> idx[m] != idx[m']
  }

  /** The scores picked by `idx` never increase along `idx`. */
  predicate NonIncreasing(s: seq<real>, idx: seq<nat>)
    requires InRange(idx, |s|)
  {
    forall m, m' :: 0 <= m < m' < |idx| ==> s[idx[m']] <= s[idx[m]]
  }

  /** No position left out of `idx` scores above any position in it. */
  predicate Dominates(s: seq<real>, idx: seq<nat>)
    requires InRange(idx, |s|)
  {
    forall j, m :: 0 <= j < |s| && j !in idx && 0 <= m < |idx| ==> s[j] <= s[idx[m]]
  }

  /** `idx` is a legitimate answer of torch.topk for row `s` and size `k`:
      k distinct positions, best first, none beaten by a position left out. */
  predicate IsTopK(s: seq<real>, k: int, idx: seq<nat>) {
    && |idx| == k
    && InRange(idx, |s|)
    && Distinct(idx)
    && NonIncreasing(s, idx)
    && Dominates(s, idx)
  }

  /** Position (within `pool`) of a highest-scoring entry of `pool`. */
  method ArgMax(s: seq<real>, pool: seq<nat>) returns (b: nat)
    requires |pool| > 0 && InRange(pool, |s|)
    ensures b < |pool|
    ensures forall p :: 0 <= p < |pool| ==> s[pool[p]] <= s[pool[b]]
  {
    b := 0;
    var p := 1;
    while p < |pool|
      invariant 1 <= p <= |pool|
      invariant b < p
      invariant forall p' :: 0 <= p' < p ==> s[pool[p']] <= s[pool[b]]
    {
      if s[pool[b]] < s[pool[p]] {
        b := p;
      }
      p := p + 1;
    }
  }

  /** The positions 0 .. n-1 in order. */
  function Positions(n: nat): (ps: seq<nat>)
    ensures |ps| == n
    ensures forall i :: 0 <= i < n ==> ps[i] == i
  {
    seq(n, i requires 0 <= i < n => i as nat)
  }

  /** Mid-selection state: `idx` holds the positions chosen so far, best first, and `pool`
      holds every other position of the row, none scoring above a chosen one. */
  predicate Splits(s: seq<real>, idx: seq<nat>, pool: seq<nat>) {
    && |idx| + |pool| == |s|
    && InRange(idx, |s|) && InRange(pool, |s|)
    && Distinct(idx) && Distinct(pool)
    && (forall i :: 0 <= i < |s| ==> (i in idx <==> i !in pool))
    && NonIncreasing(s, idx)
    && (forall m, p :: 0 <= m < |idx| && 0 <= p < |pool| ==> s[pool[p]] <= s[idx[m]])
  }

  /** Before the first choice, nothing is chosen and every position is in the pool. */
  lemma SplitsStart(s: seq<real>)
    ensures Splits(s, [], Positions(|s|))
  {
    var pool := Positions(|s|);
    assert InRange(pool, |s|);
    assert Distinct(pool) by {
      forall m, m' | 0 <= m < m' < |pool|
        ensures pool[m] != pool[m']
      {
        assert pool[m] == m && pool[m'] == m';
      }
    }
    forall i | 0 <= i < |s|
      ensures i in pool
    {
      assert pool[i] == i;
    }
  }

  /** Removing the entry at position b of a repetition-free sequence leaves every other
      entry and nothing else, still without repetitions. */
  lemma RemoveAt(pool: seq<nat>, b: nat)
    requires Distinct(pool) && b < |pool|
    ensures var rest := pool[..b] + pool[b + 1..];
            && |rest| == |pool| - 1
            && (forall p :: 0 <= p < |rest| ==> rest[p] == (if p < b then pool[p] else pool[p + 1]))
            && (forall i :: i in rest <==> i in pool && i != pool[b])
            && Distinct(rest)
  {
    var rest := pool[..b] + pool[b + 1..];
    assert forall p :: 0 <= p < |rest| ==> rest[p] == (if p < b then pool[p] else pool[p + 1]);
    forall i | i in pool && i != pool[b]
      ensures i in rest
    {
      var p :| 0 <= p < |pool| && pool[p] == i;
      if p < b {
        assert rest[p] == i;
      } else {
        assert rest[p - 1] == i;
      }
    }
  }

  /** Moving a best pool entry to the end of the answer keeps the state a split. */
  lemma SplitsStep(s: seq<real>, idx: seq<nat>, pool: seq<nat>, b: nat)
    requires Splits(s, idx, pool)
    requires b < |pool|
    requires forall p :: 0 <= p < |pool| ==> s[pool[p]] <= s[pool[b]]
    ensures Splits(s, idx + [pool[b]], pool[..b] + pool[b + 1..])
  {
    var chosen := pool[b];
    var rest := pool[..b] + pool[b + 1..];
    var idx' := idx + [chosen];
    RemoveAt(pool, b);
    assert chosen !in idx;
    assert Distinct(idx') by {
      forall m | 0 <= m < |idx|
        ensures idx[m] != chosen
      {
        assert idx[m] in idx;
      }
    }
    assert NonIncreasing(s, idx');
    forall i | 0 <= i < |s|
      ensures i in idx' <==> i !in rest
    {
      assert i in idx' <==> i in idx || i == chosen;
    }
    forall m, p | 0 <= m < |idx'| && 0 <= p < |rest|
      ensures s[rest[p]] <= s[idx'[m]]
    {
      if p < b {
        assert rest[p] == pool[p];
      } else {
        assert rest[p] == pool[p + 1];
      }
    }
  }

  /** Once k positions are chosen, the answer is a top-k: every left-out position is in the
      pool, and pool entries never beat chosen ones. */
  lemma SplitsDone(s: seq<real>, k: nat, idx: seq<nat>, pool: seq<nat>)
    requires Splits(s, idx, pool) && |idx| == k
    ensures IsTopK(s, k, idx)
  {
    forall j, m | 0 <= j < |s| && j !in idx && 0 <= m < |idx|
      ensures s[j] <= s[idx[m]]
    {
      var p :| 0 <= p < |pool| && pool[p] == j;
    }
  }

  /** Top-k selection for one row: repeatedly move a best remaining position from the pool
      of unchosen positions to the answer. */
  method SelectTopK(s: seq<real>, k: nat) returns (idx: seq<nat>)
    requires k <= |s|
    ensures IsTopK(s, k, idx)
  {
    idx := [];
    var pool := Positions(|s|);
    SplitsStart(s);
    while |idx| < k
      invariant |idx| <= k
      invariant Splits(s, idx, pool)
    {
      var b := ArgMax(s, pool);
      SplitsStep(s, idx, pool, b);
      idx := idx + [pool[b]];
      pool := pool[..b] + pool[b + 1..];
    }
    SplitsDone(s, k, idx, pool);
  }

  /** torch.topk applied row by row to a score matrix. */
  method SelectRows(rows: seq<seq<real>>, k: nat) returns (picks: seq<seq<nat>>)
    requires forall i :: 0 <= i < |rows| ==> k <= |rows[i]|
    ensures |picks| == |rows|
    ensures forall i :: 0 <= i < |rows| ==> IsTopK(rows[i], k, picks[i])
  {
    picks := [];
    while |picks| < |rows|
      invariant |picks| <= |rows|
      invariant forall i :: 0 <= i < |picks| ==> IsTopK(rows[i], k, picks[i])
    {
      var idx := SelectTopK(rows[|picks|], k);
      picks := picks + [idx];
    }
  }

  /** `[r[idx] for idx in slice]`: the entries of `r` at the chosen positions, in choice order. */
  function Gather<T>(r: seq<T>, idx: seq<nat>): (g: seq<T>)
    requires InRange(idx, |r|)
    ensures |g| == |idx|
    ensures forall m :: 0 <= m < |g| ==> g[m] == r[idx[m]]
    ensures forall x :: x in g ==> x in r
  {
    if |idx| == 0 then [] else [r[idx[0]]] + Gather(r, idx[1..])
  }

  /** In a row of two distinct scores, top-1 picks the better one. */
  lemma BestOfTwo(s: seq<real>, p: seq<nat>, best: nat, worst: nat)
    requires |s| == 2 && best < 2 && worst < 2 && best != worst
    requires s[worst] < s[best]
    requires IsTopK(s, 1, p)
    ensures p == [best]
  {
    var sBest, s0 := s[best], s[p[0]];
    assert best in p || sBest <= s0;
  }

  /** In a row of three distinct scores, top-2 picks the best then the second best. */
  lemma BestTwoOfThree(s: seq<real>, p: seq<nat>, best: nat, second: nat, worst: nat)
    requires |s| == 3 && best < 3 && second < 3 && worst < 3
    requires best != second && second != worst && best != worst
    requires s[worst] < s[second] < s[best]
    requires IsTopK(s, 2, p)
    ensures p == [best, second]
  {
    assert p[0] < 3 && p[1] < 3 && p[0] != p[1];
    var sBest, sSecond, s0, s1 := s[best], s[second], s[p[0]], s[p[1]];
    assert best in p || sBest <= s0;
    assert second in p || sSecond <= s1;
    assert s1 <= s0;
  }

  // ---------------------------------------------------------------------------------------
  // Tie order does not matter for the scores

  /** The elements of a sequence, as a set. */
  function Elements(a: seq<nat>): (e: set<nat>) {
    set x | x in a
  }

  lemma {:induction false} ElementsBound(a: seq<nat>)
    ensures |Elements(a)| <= |a|
  {
    if |a| > 0 {
      ElementsBound(a[..|a| - 1]);
      assert Elements(a) == Elements(a[..|a| - 1]) + {a[|a| - 1]};
    }
  }

  lemma {:induction false} ElementsDistinct(a: seq<nat>)
    requires Distinct(a)
    ensures |Elements(a)| == |a|
  {
    if |a| > 0 {
      var init := a[..|a| - 1];
      ElementsDistinct(init);
      assert a[|a| - 1] !in Elements(init);
      assert Elements(a) == Elements(init) + {a[|a| - 1]};
    }
  }

  lemma SubsetCard(A: set<nat>, B: set<nat>)
    requires A <= B
    ensures |A| <= |B|
  {
    assert B == A + (B - A);
  }

  /** In a legitimate top-k answer, a position scoring strictly above the m-th chosen score
      is one of the first m chosen positions. */
  lemma AboveIsEarlier(s: seq<real>, k: int, b: seq<nat>, m: nat, x: nat)
    requires IsTopK(s, k, b) && m < k && x < |s| && s[x] > s[b[m]]
    ensures x in b[..m]
  {
    if x !in b {
      assert false;
    }
    var l :| 0 <= l < k && b[l] == x;
    if l >= m {
      assert false;
    }
    assert b[..m][l] == x;
  }

  /** Among two legitimate top-k answers, the m-th chosen score of one never exceeds the
      m-th chosen score of the other: otherwise m+1 distinct positions would all score
      above `s[b[m]]`, yet only the m positions `b[..m]` can. */
  lemma NotAbove(s: seq<real>, k: int, a: seq<nat>, b: seq<nat>, m: nat)
    requires IsTopK(s, k, a) && IsTopK(s, k, b) && m < k
    ensures s[a[m]] <= s[b[m]]
  {
    if s[a[m]] > s[b[m]] {
      var A := Elements(a[..m + 1]);
      var B := Elements(b[..m]);
      forall x | x in A
        ensures x in B
      {
        var j :| 0 <= j <= m && a[j] == x;
        assert s[a[m]] <= s[x];
        AboveIsEarlier(s, k, b, m, x);
      }
      SubsetCard(A, B);
      ElementsBound(b[..m]);
      assert Distinct(a[..m + 1]);
      ElementsDistinct(a[..m + 1]);
      assert false;
    }
  }

  /** Whatever tie order torch.topk uses, the chosen scores are the same, position by
      position: ties change which equal-scoring entries are returned, never the scores. */
  lemma TopKScoresDetermined(s: seq<real>, k: int, a: seq<nat>, b: seq<nat>)
    requires IsTopK(s, k, a) && IsTopK(s, k, b)
    ensures forall m :: 0 <= m < k ==> s[a[m]] == s[b[m]]
  {
    forall m | 0 <= m < k
      ensures s[a[m]] == s[b[m]]
    {
      NotAbove(s, k, a, b, m);
      NotAbove(s, k, b, a, m);
    }
  }
}

=== FILE: vectordb.dfy ===
/** `VectorDB`: a corpus of key embeddings with cached L2 norms and parallel value texts,
    searched by batched top-k cosine similarity.

    Arithmetic is over exact reals; the fp16 storage of the keys is not modelled. Dafny has no
    square root, so every norm is an input tied to its vector by `IsNorm`. */
module VectorDB {
  import opened Results
  import opened TopK

  /** The stabiliser added to the denominator of the cosine formula. */
  const Eps: real := 0.00001

  function Dot(u: seq<real>, v: seq<real>): (d: real)
    requires |u| == |v|
  {
    if |u| == 0 then 0.0 else u[0] * v[0] + Dot(u[1..], v[1..])
  }

  /** `n` is the L2 norm of `v`: the non-negative square root of `v . v`. */
  ghost predicate IsNorm(v: seq<real>, n: real) {
    n >= 0.0 && n * n == Dot(v, v)
  }

  /** `dot / (qnorm * knorm + 1e-5)`: the denominator is positive for every pair of
      non-negative norms, so the similarity is always defined. */
  function Similarity(dot: real, qn: real, kn: real): (sim: real)
    requires qn >= 0.0 && kn >= 0.0
  {
    var den := qn * kn + Eps;
    assert den > 0.0 by { ProductNonNegative(qn, kn); }
    dot / den
  }

  /** The similarity is 0 when the dot product is, has the sign of the dot product, and when
      the dot product is bounded by the product of the norms (Cauchy-Schwarz) it lies
      strictly between -1 and 1. */
  lemma SimilarityBounds(dot: real, qn: real, kn: real)
    requires qn >= 0.0 && kn >= 0.0
    ensures dot == 0.0 ==> Similarity(dot, qn, kn) == 0.0
    ensures Similarity(dot, qn, kn) > 0.0 <==> dot > 0.0
    ensures Similarity(dot, qn, kn) < 0.0 <==> dot < 0.0
    ensures -(qn * kn) <= dot <= qn * kn ==> -1.0 < Similarity(dot, qn, kn) < 1.0
  {
    var den := qn * kn + Eps;
    ProductNonNegative(qn, kn);
    assert -(qn * kn) <= dot <= qn * kn ==> -den < dot < den;
  }

  lemma ProductNonNegative(a: real, b: real)
    requires a >= 0.0 && b >= 0.0
    ensures a * b >= 0.0
  {
  }

  lemma ProductMonotone(a: real, b: real, c: real)
    requires a >= 0.0 && b <= c
    ensures a * b <= a * c
  {
  }

  lemma ProductStrict(a: real, b: real, c: real)
    requires a > 0.0 && b < c
    ensures a * b < a * c
  {
  }

  lemma DivBoundIff(a: real, x: real, b: real)
    requires x > 0.0
    ensures a / x <= b <==> a <= x * b
  {
    if a / x <= b {
      DivBoundLeft(a, x, b);
    }
    if a <= x * b {
      DivBoundRight(a, x, b);
    }
  }

  lemma DivBoundLeft(a: real, x: real, b: real)
    requires x > 0.0 && a / x <= b
    ensures a <= x * b
  {
    var q := a / x;
    assert x * q == a;
    ProductMonotone(x, q, b);
  }

  lemma DivBoundRight(a: real, x: real, b: real)
    requires x > 0.0 && a <= x * b
    ensures a / x <= b
  {
    var q := a / x;
    assert x * q == a;
    if q > b {
      ProductStrict(x, b, q);
      assert false;
    }
  }

  lemma CancelFactor(c: real, a: real, d: real)
    requires c != 0.0 && d != 0.0
    ensures (c * a) / (c * d) == a / d
  {
  }

  /** The index: `dim` is the embedding width, `keys` the corpus matrix, `norms` the cached
      per-row norms, `values` the texts returned for chosen rows. */
  datatype Index = Index(dim: nat, keys: seq<seq<real>>, norms: seq<real>, values: seq<string>)

  /** The shape every index has: a rectangular key matrix with one non-negative cached norm
      per row. Nothing ties the number of values to the number of keys. */
  predicate Valid(db: Index) {
    && |db.norms| == |db.keys|
    && forall i :: 0 <= i < |db.keys| ==> |db.keys[i]| == db.dim && db.norms[i] >= 0.0
  }

  /** Beyond its shape, each cached norm is the norm of its key row. */
  ghost predicate NormsCached(db: Index) {
    && Valid(db)
    && forall i :: 0 <= i < |db.keys| ==> IsNorm(db.keys[i], db.norms[i])
  }

  /** `VectorDB.__init__`: the loaded key rows become a tensor and the norm of every row is
      cached. Ragged rows make torch.tensor fail; no rows at all make a 1-D tensor with no
      elements, and the einsum `"ij, ij -> i"` over it fails for want of a second dimension.
      `norms` are the square roots the constructor computes. */
  function Build(keys: seq<seq<real>>, values: seq<string>, norms: seq<real>): (r: Result<Index>)
    requires |norms| == |keys|
    requires forall i :: 0 <= i < |keys| ==> IsNorm(keys[i], norms[i])
    ensures r.Ok? <==> |keys| > 0 && forall i :: 0 <= i < |keys| ==> |keys[i]| == |keys[0]|
    ensures |keys| == 0 ==> r == Err(DimensionMismatch)
    ensures |keys| > 0 && r.Err? ==> r == Err(RaggedBatch)
    ensures r.Ok? ==> && NormsCached(r.value) && r.value.dim == |keys[0]|
                      && r.value.keys == keys && r.value.values == values
  {
    if |keys| == 0 then
      Err(DimensionMismatch)
    else if forall i :: 0 <= i < |keys| ==> |keys[i]| == |keys[0]| then
      assert forall i :: 0 <= i < |keys| ==> IsNorm(keys[i], norms[i]) && norms[i] >= 0.0;
      Ok(Index(|keys[0]|, keys, norms, values))
    else
      Err(RaggedBatch)
  }

  /** A built index scores each of its keys, used as a query with its cached norm, at
      d / (d + 1e-5) with d the key's squared norm: below 1 however long the key is. */
  lemma BuiltKeySelfScore(keys: seq<seq<real>>, values: seq<string>, norms: seq<real>, i: nat)
    requires |norms| == |keys|
    requires forall i :: 0 <= i < |keys| ==> IsNorm(keys[i], norms[i])
    requires Build(keys, values, norms).Ok? && i < |keys|
    ensures var db := Build(keys, values, norms).value;
            && |keys[i]| == db.dim
            && SimRow(db, keys[i], norms[i])[i] == Dot(keys[i], keys[i]) / (Dot(keys[i], keys[i]) + Eps)
            && SimRow(db, keys[i], norms[i])[i] < 1.0
  {
    var db := Build(keys, values, norms).value;
    assert IsNorm(db.keys[i], db.norms[i]);
    SimRowEntry(db, keys[i], norms[i], i);
    SelfSimilarity(keys[i], norms[i]);
  }

  /** Every query row has the corpus's embedding width, so the einsum is defined. */
  predicate QueriesFit(db: Index, queries: seq<seq<real>>) {
    forall i :: 0 <= i < |queries| ==> |queries[i]| == db.dim
  }

  /** One row of `sims`: the similarity of query `q` (norm `qn`) to each of the first `n` keys. */
  function SimPrefix(db: Index, q: seq<real>, qn: real, n: nat): (row: seq<real>)
    requires Valid(db) && |q| == db.dim && qn >= 0.0 && n <= |db.keys|
    ensures |row| == n
    ensures forall i :: 0 <= i < n ==> row[i] == Similarity(Dot(q, db.keys[i]), qn, db.norms[i])
  {
    if n == 0 then []
    else SimPrefix(db, q, qn, n - 1) + [Similarity(Dot(q, db.keys[n - 1]), qn, db.norms[n - 1])]
  }

  /** The similarity row of query `q` against the whole corpus. */
  function SimRow(db: Index, q: seq<real>, qn: real): (row: seq<real>)
    requires Valid(db) && |q| == db.dim && qn >= 0.0
    ensures |row| == |db.keys|
    ensures forall i :: 0 <= i < |db.keys| ==> row[i] == Similarity(Dot(q, db.keys[i]), qn, db.norms[i])
  {
    SimPrefix(db, q, qn, |db.keys|)
  }

  /** Entry i of a similarity row compares the query with key i. */
  lemma SimRowEntry(db: Index, q: seq<real>, qn: real, i: nat)
    requires Valid(db) && |q| == db.dim && qn >= 0.0 && i < |db.keys|
    ensures SimRow(db, q, qn)[i] == Similarity(Dot(q, db.keys[i]), qn, db.norms[i])
  {
  }

  /** `out` is what `topk_cosine` returns when torch.topk chose positions `picks`: per query,
      a top-k of its own similarity row, and the values and scores at those positions. */
  ghost predicate SearchedBy(db: Index, queries: seq<seq<real>>, qnorms: seq<real>, k: int,
                             picks: seq<seq<nat>>, out: Ranked)
    requires Valid(db) && QueriesFit(db, queries) && |qnorms| == |queries|
    requires forall i :: 0 <= i < |qnorms| ==> qnorms[i] >= 0.0
  {
    && |picks| == |queries|
    && |out.texts| == |queries|
    && |out.scores| == |queries|
    && forall i :: 0 <= i < |queries| ==>
         var row := SimRow(db, queries[i], qnorms[i]);
         && IsTopK(row, k, picks[i])
         && InRange(picks[i], |db.values|)
         && out.texts[i] == Gather(db.values, picks[i])
         && out.scores[i] == Gather(row, picks[i])
  }

  /** Query i of a searched batch gets exactly what searching with it alone and the same
      choice of positions gives. */
  lemma SearchedRowAlone(db: Index, queries: seq<seq<real>>, qnorms: seq<real>, k: int,
                         picks: seq<seq<nat>>, out: Ranked, i: nat)
    requires Valid(db) && QueriesFit(db, queries) && |qnorms| == |queries|
    requires forall i :: 0 <= i < |qnorms| ==> qnorms[i] >= 0.0
    requires SearchedBy(db, queries, qnorms, k, picks, out)
    requires i < |queries|
    ensures QueriesFit(db, [queries[i]])
    ensures SearchedBy(db, [queries[i]], [qnorms[i]], k, [picks[i]], Ranked([out.scores[i]], [out.texts[i]]))
  {
    var row := SimRow(db, queries[i], qnorms[i]);
    assert IsTopK(row, k, picks[i]) && InRange(picks[i], |db.values|);
  }

  /** Batching does not change a query's scores: slice i of a batch and the slice of any
      search with query i alone carry equal scores at every rank, whatever tie rule each run
      used. */
  lemma SearchScoresMatchAlone(db: Index, queries: seq<seq<real>>, qnorms: seq<real>, k: int,
                               picks: seq<seq<nat>>, out: Ranked, i: nat,
                               alonePicks: seq<seq<nat>>, alone: Ranked)
    requires Valid(db) && QueriesFit(db, queries) && |qnorms| == |queries|
    requires forall i :: 0 <= i < |qnorms| ==> qnorms[i] >= 0.0
    requires SearchedBy(db, queries, qnorms, k, picks, out)
    requires i < |queries| && QueriesFit(db, [queries[i]])
    requires SearchedBy(db, [queries[i]], [qnorms[i]], k, alonePicks, alone)
    ensures out.scores[i] == alone.scores[0]
  {
    var row := SimRow(db, queries[i], qnorms[i]);
    assert IsTopK(row, k, picks[i]) && out.scores[i] == Gather(row, picks[i]);
    assert ([queries[i]])[0] == queries[i] && ([qnorms[i]])[0] == qnorms[i];
    assert IsTopK(row, k, alonePicks[0]) && alone.scores[0] == Gather(row, alonePicks[0]);
    TopKScoresDetermined(row, k, picks[i], alonePicks[0]);
  }

  /** `topk_cosine`. `qnorms` are the query norms the method computes with `torch.sqrt`;
      the contract holds for any non-negative norms, the true ones included. `picks` records
      the positions torch.topk chose. */
  method TopKCosine(db: Index, queries: seq<seq<real>>, qnorms: seq<real>, k: int)
    returns (res: Result<Ranked>, ghost picks: seq<seq<nat>>)
    requires Valid(db)
    requires |qnorms| == |queries|
    requires forall i :: 0 <= i < |qnorms| ==> qnorms[i] >= 0.0
    ensures !QueriesFit(db, queries) ==> res == Err(DimensionMismatch)
    ensures QueriesFit(db, queries) && !(0 <= k <= |db.keys|) ==> res == Err(InvalidK)
    ensures QueriesFit(db, queries) && 0 <= k <= |db.keys| ==>
              && |picks| == |queries|
              && forall i :: 0 <= i < |queries| ==> IsTopK(SimRow(db, queries[i], qnorms[i]), k, picks[i])
    ensures res.Ok? <==>
              && QueriesFit(db, queries) && 0 <= k <= |db.keys|
              && forall i :: 0 <= i < |picks| ==> InRange(picks[i], |db.values|)
    ensures res.Err? && QueriesFit(db, queries) && 0 <= k <= |db.keys| ==> res == Err(IndexOutOfRange)
    ensures QueriesFit(db, queries) && 0 <= k <= |db.keys| && |db.keys| <= |db.values| ==> res.Ok?
    ensures res.Ok? ==>
              && QueriesFit(db, queries) && 0 <= k <= |db.keys|
              && |picks| == |queries|
              && |res.value.texts| == |queries|
              && |res.value.scores| == |queries|
              && forall i :: 0 <= i < |queries| ==>
                   && IsTopK(SimRow(db, queries[i], qnorms[i]), k, picks[i])
                   && InRange(picks[i], |db.values|)
                   && res.value.texts[i] == Gather(db.values, picks[i])
                   && res.value.scores[i] == Gather(SimRow(db, queries[i], qnorms[i]), picks[i])
    ensures res.Ok? ==> QueriesFit(db, queries) && SearchedBy(db, queries, qnorms, k, picks, res.value)
    ensures res.Ok? ==> forall i :: 0 <= i < |queries| ==>
              && |res.value.texts[i]| == k
              && forall x :: x in res.value.texts[i] ==> x in db.values
  {
    picks := [];
    if !QueriesFit(db, queries) {
      return Err(DimensionMismatch), picks;
    }
    var n := |queries|;
    var sims := seq(n, i requires 0 <= i < n => SimRow(db, queries[i], qnorms[i]));
    if !(0 <= k <= |db.keys|) {
      return Err(InvalidK), picks;
    }
    var chosen := SelectRows(sims, k);
    picks := chosen;
    if exists i :: 0 <= i < n && !InRange(chosen[i], |db.values|) {
      return Err(IndexOutOfRange), picks;
    }
    var texts := seq(n, i requires 0 <= i < n => Gather(db.values, chosen[i]));
    var scores := seq(n, i requires 0 <= i < n => Gather(sims[i], chosen[i]));
    res := Ok(Ranked(scores, texts));
  }

  // ---------------------------------------------------------------------------------------
  // Degenerate rows

  predicate IsZero(v: seq<real>) {
    forall j :: 0 <= j < |v| ==> v[j] == 0.0
  }

  lemma {:induction false} DotZero(u: seq<real>, v: seq<real>)
    requires |u| == |v| && (IsZero(u) || IsZero(v))
    ensures Dot(u, v) == 0.0
  {
    if |u| > 0 {
      DotZero(u[1..], v[1..]);
    }
  }

  /** A zero key row has similarity exactly 0 to every query: its dot product is 0 and the
      stabiliser keeps the division defined although its norm is 0. */
  lemma ZeroKeyScoresZero(db: Index, q: seq<real>, qn: real, i: nat)
    requires Valid(db) && |q| == db.dim && qn >= 0.0
    requires i < |db.keys| && IsZero(db.keys[i])
    ensures SimRow(db, q, qn)[i] == 0.0
  {
    DotZero(q, db.keys[i]);
  }

  /** A zero query has similarity exactly 0 to every key. */
  lemma ZeroQueryScoresZero(db: Index, q: seq<real>, qn: real)
    requires Valid(db) && |q| == db.dim && qn >= 0.0 && IsZero(q)
    ensures forall i :: 0 <= i < |db.keys| ==> SimRow(db, q, qn)[i] == 0.0
  {
    forall i | 0 <= i < |db.keys|
      ensures SimRow(db, q, qn)[i] == 0.0
    {
      DotZero(q, db.keys[i]);
    }
  }

  // ---------------------------------------------------------------------------------------
  // Self-similarity and scaling

  /** A vector against itself scores `|v|^2 / (|v|^2 + 1e-5)`, never exactly 1; it is within
      1e-4 of 1 exactly when `|v|^2 >= 0.09999`. */
  lemma SelfSimilarity(v: seq<real>, n: real)
    requires IsNorm(v, n)
    ensures Similarity(Dot(v, v), n, n) == Dot(v, v) / (Dot(v, v) + Eps)
    ensures Similarity(Dot(v, v), n, n) < 1.0
    ensures 1.0 - Similarity(Dot(v, v), n, n) <= 0.0001 <==> Dot(v, v) >= 0.09999
  {
    var d := Dot(v, v);
    var s := Similarity(d, n, n);
    ProductNonNegative(n, n);
    assert s == d / (d + Eps);
    assert 1.0 - s == Eps / (d + Eps);
    DivBoundIff(Eps, d + Eps, 0.0001);
    assert (d + Eps) * 0.0001 == 0.0001 * d + 0.000000001;
  }

  function Scale(c: real, v: seq<real>): (w: seq<real>)
    ensures |w| == |v|
    ensures forall j :: 0 <= j < |v| ==> w[j] == c * v[j]
  {
    if |v| == 0 then [] else [c * v[0]] + Scale(c, v[1..])
  }

  lemma {:induction false} DotScale(c: real, u: seq<real>, v: seq<real>)
    requires |u| == |v|
    ensures Dot(Scale(c, u), v) == c * Dot(u, v)
    ensures Dot(u, Scale(c, v)) == c * Dot(u, v)
  {
    if |u| > 0 {
      DotScale(c, u[1..], v[1..]);
      assert Scale(c, u)[1..] == Scale(c, u[1..]);
      assert Scale(c, v)[1..] == Scale(c, v[1..]);
    }
  }

  /** Scaling a vector by c > 0 scales its norm by c. */
  lemma ScaledNorm(q: seq<real>, qn: real, c: real)
    requires IsNorm(q, qn) && c > 0.0
    ensures IsNorm(Scale(c, q), c * qn)
  {
    var sq := Scale(c, q);
    DotScale(c, q, sq);
    DotScale(c, q, q);
    calc {
      Dot(sq, sq);
      c * Dot(q, sq);
      c * (c * Dot(q, q));
      c * (c * (qn * qn));
      (c * qn) * (c * qn);
    }
    ProductNonNegative(c, qn);
  }

  /** Multiplying the dot product and the query norm by c > 0 is the same as dividing the
      stabiliser by c. */
  lemma ScaledSimilarity(d: real, qn: real, kn: real, c: real)
    requires qn >= 0.0 && kn >= 0.0 && c > 0.0
    ensures c * qn >= 0.0
    ensures Similarity(c * d, c * qn, kn) == d / (qn * kn + Eps / c)
  {
    var den := qn * kn + Eps / c;
    ProductNonNegative(qn, kn);
    ProductNonNegative(c, qn);
    assert c * den == (c * qn) * kn + Eps;
    CancelFactor(c, d, den);
  }

  /** Scaling a query by c > 0, and its norm with it (`ScaledNorm`), scales the dot product
      in each entry of its similarity row by c; by `ScaledSimilarity` the entry is then the
      unscaled one computed with the stabiliser divided by c, so the ranking is not scale
      invariant. */
  lemma ScaledQueryRow(db: Index, q: seq<real>, qn: real, c: real, i: nat)
    requires Valid(db) && |q| == db.dim && qn >= 0.0 && c > 0.0 && i < |db.keys|
    ensures c * qn >= 0.0
    ensures SimRow(db, Scale(c, q), c * qn)[i] == Similarity(c * Dot(q, db.keys[i]), c * qn, db.norms[i])
  {
    ProductNonNegative(c, qn);
    SimRowEntry(db, Scale(c, q), c * qn, i);
    assert SimRow(db, Scale(c, q), c * qn)[i] == Similarity(Dot(Scale(c, q), db.keys[i]), c * qn, db.norms[i]);
    DotScale(c, q, db.keys[i]);
    assert Dot(Scale(c, q), db.keys[i]) == c * Dot(q, db.keys[i]);
    assert Similarity(Dot(Scale(c, q), db.keys[i]), c * qn, db.norms[i])
        == Similarity(c * Dot(q, db.keys[i]), c * qn, db.norms[i]);
  }

  /** A two-row corpus where scaling the query down flips the best match. */
  const ScalingCorpus: Index := Index(2, [[0.1, 0.0], [0.6, 0.8]], [0.1, 1.0], ["near", "far"])

  lemma ScalingChangesTopOne(a: seq<nat>, b: seq<nat>)
    requires IsTopK(SimRow(ScalingCorpus, [1.0, 0.0], 1.0), 1, a)
    requires IsTopK(SimRow(ScalingCorpus, [0.00001, 0.0], 0.00001), 1, b)
    ensures NormsCached(ScalingCorpus)
    ensures a == [0] && b == [1]
  {
    var db := ScalingCorpus;
    ScalingCorpusCached();
    ScalingRowUnit();
    ScalingRowTiny();
    BestOfTwo(SimRow(db, [1.0, 0.0], 1.0), a, 0, 1);
    BestOfTwo(SimRow(db, [0.00001, 0.0], 0.00001), b, 1, 0);
  }

  lemma ScalingCorpusCached()
    ensures NormsCached(ScalingCorpus)
  {
    var db := ScalingCorpus;
    assert Dot(db.keys[0], db.keys[0]) == 0.01;
    assert Dot(db.keys[1], db.keys[1]) == 1.0;
  }

  lemma ScalingRowUnit()
    ensures var s := SimRow(ScalingCorpus, [1.0, 0.0], 1.0); s[1] < s[0]
  {
    var s := SimRow(ScalingCorpus, [1.0, 0.0], 1.0);
    assert s[0] == 0.1 / (0.1 + Eps) && s[1] == 0.6 / (1.0 + Eps);
  }

  lemma ScalingRowTiny()
    ensures var t := SimRow(ScalingCorpus, [0.00001, 0.0], 0.00001); t[0] < t[1]
  {
    var t := SimRow(ScalingCorpus, [0.00001, 0.0], 0.00001);
    assert t[0] == 0.000001 / (0.000001 + Eps) && t[1] == 0.000006 / (0.00001 + Eps);
  }

  /** The search scenario: keys A = (1,0), B = (0,1), C = (1,1) and query (1,0) with k = 2
      return A then C. */
  lemma SearchExample(r: real, p: seq<nat>)
    requires IsNorm([1.0, 1.0], r)
    requires IsTopK(SimRow(Index(2, [[1.0, 0.0], [0.0, 1.0], [1.0, 1.0]], [1.0, 1.0, r], ["A", "B", "C"]),
                           [1.0, 0.0], 1.0), 2, p)
    ensures p == [0, 2]
    ensures Gather(["A", "B", "C"], p) == ["A", "C"]
  {
    var db := Index(2, [[1.0, 0.0], [0.0, 1.0], [1.0, 1.0]], [1.0, 1.0, r], ["A", "B", "C"]);
    var s := SimRow(db, [1.0, 0.0], 1.0);
    SearchExampleRow(r, db, s);
    BestTwoOfThree(s, p, 0, 2, 1);
    assert Gather(["A", "B", "C"], p)[1] == "C";
  }

  lemma SearchExampleRow(r: real, db: Index, s: seq<real>)
    requires r >= 0.0 && r * r == 2.0
    requires db == Index(2, [[1.0, 0.0], [0.0, 1.0], [1.0, 1.0]], [1.0, 1.0, r], ["A", "B", "C"])
    requires s == SimRow(db, [1.0, 0.0], 1.0)
    ensures |s| == 3 && s[1] < s[2] < s[0]
  {
    assert r > 1.0 by {
      if r <= 1.0 { ProductMonotone(r, r, 1.0); }
    }
    assert s[0] == 1.0 / (1.0 + Eps);
    assert s[1] == 0.0;
    assert s[2] == 1.0 / (r + Eps);
  }
}
